=== FILE: README.md ===
# SVG viewer viewport: a Dafny model

This project models the viewport transform engine of an SVG drawing viewer. The engine is the `SVGViewer` class and its `MiniMap` helper in `js/svg-viewer.js`. The viewer shows a large drawing through a fixed-size viewport. The user pans it with buttons or by dragging with the mouse, and zooms it with buttons. A minimap shows where the viewport lies within the whole drawing.

The project has these files:

- `viewport.dfy`, module `Viewport`: the viewer's state as a value (`ViewState`) and its operations as functions.
  - `Move` is `move`: pan, then clamp each coordinate.
  - `Zoom` is `zoom`: add the delta, clamp into [0.1, 2.0], then recompute the bounds.
  - `CalculateViewAreaRatioValues` recomputes the scaled area and the largest pan offsets.
  - `OnAreaMouseEvent` is the drag machine.
  - `StartAnimationLoop` and `StopAnimationLoop` set and clear the render loop's handle.
  - `Valid` is the invariant every reachable state keeps.
  - The host's `setInterval`/`clearInterval` are modelled as a table of live interval ids (`IntervalTable`). This makes "no render loop is leaked" a statement the model can prove.
- `svg_viewer.dfy`, module `SvgViewer`: the `SVGViewer` class. It has the source's fields: `viewPosition` is a two-element array updated in place, and the other fields are the zoom level and its limits, the drag flag, the interval handle, and the scaled area and offset bounds. Its methods do what the source's methods do, statement by statement. Each method is proved to leave the object in the state the matching `Viewport` function computes from the state before the call.
- `minimap.dfy`, module `MiniMapSync`: `MiniMap.update` as a function from the zoom level, the pan offset and the frame's rendered width to the style values it writes. `Math.round` is modelled exactly over reals as `floor(x + 0.5)`.
- `viewport_properties.dfy` and `minimap_properties.dfy`: lemmas about the above.
- `wrappers.dfy`: `Option`, standing for a value that may be `null`.

Numbers are `real`. Page geometry (the drawing's base size, the viewport's client size, the minimap frame's client width) is passed in as parameters instead of being read from the document.

### Behaviour worth knowing

- The largest pan offset is `areaWidth - clientWidth` with no floor at 0 (js/svg-viewer.js:122-123). When the scaled drawing is smaller than the viewport, that bound is negative. `move` then pins the offset to that negative bound, because the upper clamp runs last (js/svg-viewer.js:91-94).
- `zoom` recomputes the bounds but does not clamp the position again (js/svg-viewer.js:104-117). After zooming out, the offset can lie outside the new bounds until the next `move` clamps it again, to the negative bound if the scaled drawing no longer fills the viewport. `ViewportProperties.ZoomOutLeavesOffsetOutOfBounds` works this through on a 1000 x 800 drawing in a 400 x 300 viewport.
- Dragging pans by the event's own `movementX`/`movementY`, negated (js/svg-viewer.js:149). No pointer position is recorded. `mousedown` only sets the flag and starts the render loop.
- The `wheel` event reaches the handler but matches no case, so it changes nothing.
- The minimap frame's height is its width times the drawing's width over its height (js/svg-viewer.js:14, 19). The frame therefore has the drawing's shape turned on its side: a 1000 x 800 drawing gets a frame 100 wide and 125 high. Only a square drawing keeps its shape. `MiniMapProperties.FrameShapeInverted` proves this for every size.

## Model

| member | source | states |
|---|---|---|
| Viewport.ClampOffset | js/svg-viewer.js:91-94 | With a non-negative bound the result lies in [0, bound], and a value already inside is kept. With a negative bound the result is that bound. Below 0 gives 0, above the bound gives the bound. |
| Viewport.ClampZoom | js/svg-viewer.js:105-110 | The result always lies in [0.1, 2.0]. A value inside is kept, one below gives 0.1 and one above gives 2.0. |
| Viewport.CalculateViewAreaRatioValues | js/svg-viewer.js:119-124 | The bounds become fresh: area = base size times zoom, and max offset = area minus client size. Nothing else changes. The max offset is non-negative exactly when the scaled drawing is at least as large as the viewport. |
| Viewport.Init | js/svg-viewer.js:31-38 | The constructed state is valid: position (0,0), zoom 1, no drag, no interval handle and no live interval. The max offsets are base size minus client size. |
| Viewport.Move | js/svg-viewer.js:87-102 | Only the position changes. Each coordinate lands in [0, max offset] when that bound is non-negative, and equals the bound when it is negative. An in-range sum is taken as it is. A sum below 0 gives 0, and one above a non-negative bound gives the bound. |
| Viewport.Zoom | js/svg-viewer.js:104-117 | The zoom level lands in [0.1, 2.0]: old + delta when that is in range, otherwise the limit it overshoots. The bounds are fresh for the new zoom. The position and everything else are unchanged. |
| Viewport.SetInterval | js/svg-viewer.js:155-157 | The handed-out id is added to the live ids. It was not live before, provided every live id is below the next id, and that condition still holds afterwards. |
| Viewport.ClearInterval | js/svg-viewer.js:161 | Clearing a handle removes it from the live ids. Clearing null changes nothing. |
| Viewport.StartAnimationLoop | js/svg-viewer.js:154-158 | The handle is set to a live interval. Provided every live id is below the table's next id, that interval was not live before. Only the handle and the interval table change. |
| Viewport.StopAnimationLoop | js/svg-viewer.js:160-163 | The handle becomes null. When a handle was held, exactly that interval is removed from the live ids. When none was held, the table is unchanged. The next id is kept, and only the handle and the table change. |
| Viewport.OnAreaMouseEvent | js/svg-viewer.js:133-152 | No mouse event changes the sizes, the zoom level or the bounds. Mousedown leaves a drag in progress. Mouseup ends the drag and clears the handle. Mousemove changes neither the flag nor the handle. Wheel and other events change nothing. |
| Viewport.StepPreservesValid | js/svg-viewer.js:87-163 | Each move, zoom or mouse event keeps a valid state valid: the zoom level in range, the bounds fresh and the timer state consistent. |
| Viewport.Run | js/svg-viewer.js:53-84 | Over any sequence of direct moves, zooms and mouse events, the page sizes stay as they were. From a valid state, the state after the sequence is valid. The proof is by induction on the sequence. |
| SvgViewer.SVGViewer.constructor | js/svg-viewer.js:28-42 | The new object's state is `Viewport.Init` of the given sizes, with a fresh two-element position array. Its `miniMap` is `MiniMapSync.MiniMapOf` of the same sizes. |
| SvgViewer.SVGViewer.Move | js/svg-viewer.js:87-102 | Updates the position array in place to exactly `Viewport.Move` of the old state. |
| SvgViewer.SVGViewer.Zoom | js/svg-viewer.js:104-117 | The new state is exactly `Viewport.Zoom` of the old state. It writes only the zoom level and the four bound fields. |
| SvgViewer.SVGViewer.CalculateViewAreaRatioValues | js/svg-viewer.js:119-124 | The new state is exactly `Viewport.CalculateViewAreaRatioValues` of the old state. It writes only the four bound fields. |
| SvgViewer.SVGViewer.OnAreaMouseEvent | js/svg-viewer.js:133-152 | The new state is exactly `Viewport.OnAreaMouseEvent` of the old state. |
| SvgViewer.SVGViewer.StartAnimationLoop | js/svg-viewer.js:154-158 | The new state is exactly `Viewport.StartAnimationLoop` of the old state. |
| SvgViewer.SVGViewer.StopAnimationLoop | js/svg-viewer.js:160-163 | The new state is exactly `Viewport.StopAnimationLoop` of the old state. |
| ViewportProperties.MoveZeroWithinBounds | js/svg-viewer.js:87-97 | `move([0,0])` from a position inside [0, max offset] changes nothing. |
| ViewportProperties.MoveSettles | js/svg-viewer.js:87-97 | `move([0,0])` after any move changes nothing, including when a negative bound pinned the offset. |
| ViewportProperties.RecalculateFreshIsIdentity | js/svg-viewer.js:119-124 | Recomputing fresh bounds changes nothing. |
| ViewportProperties.RecalculateThenSettleIdempotent | js/svg-viewer.js:87-124 | Recomputing the bounds and then `move([0,0])` is idempotent. |
| ViewportProperties.AtMostOneLiveInterval | js/svg-viewer.js:138-163 | In a valid state at most one interval is live, and exactly one while a drag is in progress. |
| ViewportProperties.ReachableStatesValid | js/svg-viewer.js:31-38 | Every state reached from construction is valid. Its zoom level lies in [0.1, 2.0], and at most one render loop is live. |
| ViewportProperties.PanningKeepsZoomAndBounds | js/svg-viewer.js:87-102 | Sequences of moves and mouse events leave the zoom level and all bound fields unchanged. |
| ViewportProperties.PanningKeepsOffsetInBounds | js/svg-viewer.js:87-102 | Without a zoom, a position inside [0, max offset] stays inside after any moves and drag events. |
| ViewportProperties.MouseDownWhileMovingIgnored | js/svg-viewer.js:138-139 | Mousedown during a drag changes nothing, so no second render loop starts. |
| ViewportProperties.MouseDownStartsOneLoop | js/svg-viewer.js:138-141 | From a valid state, mousedown outside a drag sets the flag and starts a render loop whose handle is the only live interval. Nothing else changes. |
| ViewportProperties.MouseUpStopsLoop | js/svg-viewer.js:143-146 | From a valid state, mouseup ends the drag, clears the handle and leaves no live interval. A second mouseup changes nothing. |
| ViewportProperties.MouseUpIdempotent | js/svg-viewer.js:143-146 | In any state, two mouseups give the same state as one. |
| ViewportProperties.MouseMoveWhileIdleIgnored | js/svg-viewer.js:147-148 | Mousemove outside a drag changes nothing. |
| ViewportProperties.MouseMoveWhileMovingPans | js/svg-viewer.js:147-149 | Mousemove during a drag is `move([-movementX, -movementY])`. |
| ViewportProperties.InitIsFreshDrawing | js/svg-viewer.js:31-38 | The constructed 1000 x 800 / 400 x 300 viewer is at zoom 1 with fresh bounds, no pan and no drag. |
| ViewportProperties.ZoomOutLeavesOffsetOutOfBounds | js/svg-viewer.js:87-124 | Concrete case. The bounds start at (600, 500). `move([700,0])` gives (600, 0). `zoom(-0.95)` gives zoom 0.1 and bounds (-300, -220), and keeps x = 600, which is out of bounds. The next `move([0,0])` gives (-300, -220). |
| ViewportProperties.DragSessionScenario | js/svg-viewer.js:133-163 | Concrete case. Mousedown and then a movement of (-10, 0) pan to (10, 0), with one live interval. Two mouseups leave no drag, no handle and no live interval, and the position stays at (10, 0). |
| MiniMapSync.Round | js/svg-viewer.js:19 | `Math.round`: the result is within half a unit of x, with halves rounded up. |
| MiniMapSync.MiniMapOf | js/svg-viewer.js:2-9 | The minimap's view size is the viewer's client size, and its base size is the drawing's unscaled size. The element lookups are left out. |
| MiniMapSync.Update | js/svg-viewer.js:11-24 | Frame height = round(frame width * base width / base height), so the frame has the drawing's shape turned on its side. Indicator width% * scaled width = view width * 100, and likewise for height. Neither percentage is clamped. Left/top = round(offset * frame width / base width). |
| MiniMapProperties.RoundsToUnique | js/svg-viewer.js:19 | The rounding relation determines its integer. |
| MiniMapProperties.FrameHeightIndependentOfZoom | js/svg-viewer.js:12-19 | The frame height does not depend on the zoom level or the pan offset. |
| MiniMapProperties.FrameShapeInverted | js/svg-viewer.js:12-19 | Before rounding, frame height * base height = frame width * base width. The frame's height-to-width ratio equals the drawing's width-to-height ratio exactly when the drawing is square. The frame is taller than it is wide exactly when the drawing is wider than it is tall. |
| MiniMapProperties.IndicatorFillsWidthIff | js/svg-viewer.js:12-20 | The indicator is at least 100% wide exactly when the viewport is at least as wide as the scaled drawing. |
| MiniMapProperties.IndicatorFillsWidthIffNoPan | js/svg-viewer.js:15-20 | For a valid viewer state, the indicator is at least 100% wide exactly when the horizontal max offset is at most 0. |
| MiniMapProperties.IndicatorInsideFrameAtUnitZoom | js/svg-viewer.js:15-23 | Horizontally only: at zoom 1 with the horizontal offset in bounds, the indicator's left edge is at or right of 0, and left plus width is at most the frame width (before rounding). |
| MiniMapProperties.IndicatorLeavesFrameAtZoomTwo | js/svg-viewer.js:15-23 | Concrete case: a 1000 x 800 drawing in a 400 x 300 viewport, from the constructor's zoom 1 and no pan. `zoom(1)` gives zoom 2, and `move([1600, 0])` reaches the new horizontal bound, 1600. The minimap built from the same sizes, in a frame 100 pixels wide, then puts the indicator's left edge at 160, so the indicator lies outside the frame. |
| MiniMapProperties.IndicatorBelowFrameAtUnitZoom | js/svg-viewer.js:14-22 | Concrete case: an 800 x 1000 drawing in a 400 x 300 viewport, from the constructor's zoom 1 with fresh bounds and no pan. `move([0, 700])` reaches the vertical bound, 700. In a frame 100 wide, the minimap built from the same sizes gives a frame 80 high with the indicator's top at 88, below the frame. |
| MiniMapProperties.MiniMapScenario | js/svg-viewer.js:11-24 | Concrete case: 1000 x 800 drawing, 400 x 300 viewport, frame width 100, zoom 1, offset (600, 500). The result is frame height 125, indicator 40% x 37.5%, top 50 and left 60. |

## Left out

- `initViewControls` (js/svg-viewer.js:44-85) looks up elements and registers listeners. The six buttons only call `move` with ±20 and `zoom` with ±0.1. Those calls are the `Pan` and `ZoomBy` actions of `Viewport.Run`.
- `updateView` (js/svg-viewer.js:126-131) writes CSS strings, which is rendering. Its minimap call is `MiniMapSync.Update` applied to the current zoom level and position. The `updateView` flag of `move` and `zoom`, and the constructor's first minimap update (js/svg-viewer.js:41), are left out for the same reason.
- The render loop's ticks: `setInterval`'s callback and its 30 ms period are not modelled. Only which interval ids are live and which handle the viewer holds are kept.
- The page sizes are read once and passed in. In JavaScript `calculateViewAreaRatioValues` re-reads them from the document each time, so it would pick up a resize. The model treats them as constant.
- `clientX`/`clientY` (js/svg-viewer.js:134-135) are read but never used, so events carry only their movement.
- Floating-point rounding (for example, repeated ±0.1 zoom steps) is not modelled. Numbers are exact reals.
- MiniMapSync.Update: requires a positive base width and height and a positive zoom level. JavaScript would divide by zero and write `Infinity` or `NaN`. The viewer only passes zoom levels in [0.1, 2.0].
- The DOM element references (`view`, `area`, `areaFrame`, `viewFrame`) and the failure to find them are not modelled.
- MiniMapProperties.IndicatorInsideFrameAtUnitZoom: is stated only horizontally and only at zoom 1. `update` scales the offset, which is measured in the scaled drawing, by the frame width over the unscaled width (js/svg-viewer.js:17, 22-23). Above zoom 1 the indicator can leave the frame horizontally, as `MiniMapProperties.IndicatorLeavesFrameAtZoomTwo` shows. Vertically the top uses the same scale, but the frame's height is width times width over height (js/svg-viewer.js:14, 19). The indicator can then leave the frame even at zoom 1, as `MiniMapProperties.IndicatorBelowFrameAtUnitZoom` shows.
- `js/app.js` only constructs the viewer and an editor. The editor is not part of this model.

=== FILE: minimap.dfy ===
/**
  The minimap: a small frame showing the whole drawing, with an indicator
  rectangle for the part the viewport shows. `Update` computes the style
  values `MiniMap.update` writes, from the zoom level, the pan offset and
  the frame's rendered width.
*/
module MiniMapSync {
  import Viewport

  /** `n` is what `Math.round` gives for `x`: the nearest integer, halves rounded up. */
  predicate RoundsTo(n: int, x: real) {
    n as real - 0.5 <= x < n as real + 0.5
  }

  /** `Math.round`. */
  function Round(x: real): (n: int)
    ensures RoundsTo(n, x)
  {
    (x + 0.5).Floor
  }

  /** Sizes the minimap reads when it is built: the viewport's client width
      and height and the drawing's unscaled width and height. */
  datatype MiniMap = MiniMap(viewWidth: real, viewHeight: real, areaBaseWidth: real, areaBaseHeight: real)

  /** The minimap the viewer builds, `new MiniMap(area, view)`: it reads the
      same page sizes as the viewer, the viewport's client size as its view
      size and the drawing's unscaled size as its base size. */
  function MiniMapOf(d: Viewport.Dims): (m: MiniMap)
    ensures m.viewWidth == d.clientWidth && m.viewHeight == d.clientHeight
    ensures m.areaBaseWidth == d.baseWidth && m.areaBaseHeight == d.baseHeight
  {
    MiniMap(d.clientWidth, d.clientHeight, d.baseWidth, d.baseHeight)
  }

  /** The style values `update` writes: the frame's height in pixels, the
      indicator's width and height in percent of the frame, and its top and
      left offsets in pixels. */
  datatype MiniMapStyle = MiniMapStyle(
    frameHeight: int,
    indicatorWidth: real,
    indicatorHeight: real,
    indicatorTop: int,
    indicatorLeft: int)

  /** `MiniMap.update(zoom, position)`, with the frame's current client width
      as a parameter. The frame's height is its width times the drawing's
      width over its height, whatever the zoom, which turns the drawing's
      shape on its side unless it is square; the indicator's size is the
      viewport over the scaled drawing, not
      clamped to 100%; its offsets are the pan offset scaled by the frame's
      width over the unscaled drawing width. */
  function Update(m: MiniMap, frameClientWidth: real, zoom: real, position: (real, real)): (r: MiniMapStyle)
    requires m.areaBaseWidth > 0.0 && m.areaBaseHeight > 0.0 && zoom > 0.0
    ensures RoundsTo(r.frameHeight, frameClientWidth * m.areaBaseWidth / m.areaBaseHeight)
    ensures r.indicatorWidth * (m.areaBaseWidth * zoom) == m.viewWidth * 100.0
    ensures r.indicatorHeight * (m.areaBaseHeight * zoom) == m.viewHeight * 100.0
    ensures RoundsTo(r.indicatorTop, position.1 * frameClientWidth / m.areaBaseWidth)
    ensures RoundsTo(r.indicatorLeft, position.0 * frameClientWidth / m.areaBaseWidth)
  {
    var areaWidth := m.areaBaseWidth * zoom;
    var areaHeight := m.areaBaseHeight * zoom;
    var areaRatio := areaWidth / areaHeight;
    var relativeWidth := m.viewWidth / areaWidth * 100.0;
    var relativeHeight := m.viewHeight / areaHeight * 100.0;
    var scale := frameClientWidth / m.areaBaseWidth;
    assert areaRatio == m.areaBaseWidth / m.areaBaseHeight by {
      assert areaRatio * areaHeight == areaWidth;
    }
    assert frameClientWidth * areaRatio == frameClientWidth * m.areaBaseWidth / m.areaBaseHeight;
    assert position.1 * scale == position.1 * frameClientWidth / m.areaBaseWidth;
    assert position.0 * scale == position.0 * frameClientWidth / m.areaBaseWidth;
    MiniMapStyle(
      Round(frameClientWidth * areaRatio),
      relativeWidth,
      relativeHeight,
      Round(position.1 * scale),
      Round(position.0 * scale))
  }
}

=== FILE: minimap_properties.dfy ===
/**
  Properties of the minimap geometry, and how it relates to the viewer's
  state.
*/
module MiniMapProperties {
  import opened MiniMapSync
  import Viewport

  /** `Math.round` has one answer. */
  lemma RoundsToUnique(n: int, k: int, x: real)
    requires RoundsTo(n, x) && RoundsTo(k, x)
    ensures n == k
  {
  }

  /** The frame's height depends on the frame's width and the drawing's
      unscaled sizes only: neither the zoom level nor the pan offset changes it. */
  lemma FrameHeightIndependentOfZoom(m: MiniMap, frameClientWidth: real,
                                     zoom1: real, position1: (real, real),
                                     zoom2: real, position2: (real, real))
    requires m.areaBaseWidth > 0.0 && m.areaBaseHeight > 0.0 && zoom1 > 0.0 && zoom2 > 0.0
    ensures Update(m, frameClientWidth, zoom1, position1).frameHeight
         == Update(m, frameClientWidth, zoom2, position2).frameHeight
  {
  }

  /** The frame's height, before `Update` rounds it, over its width is the
      drawing's width over its height: the drawing's own ratio inverted. The
      frame has the drawing's shape exactly when the drawing is square, and
      otherwise one turned on its side (a landscape drawing gets a portrait
      frame). */
  lemma FrameShapeInverted(m: MiniMap, frameClientWidth: real)
    requires m.areaBaseWidth > 0.0 && m.areaBaseHeight > 0.0 && frameClientWidth > 0.0
    ensures var h := frameClientWidth * m.areaBaseWidth / m.areaBaseHeight;
            && h * m.areaBaseHeight == frameClientWidth * m.areaBaseWidth
            && (h * m.areaBaseWidth == frameClientWidth * m.areaBaseHeight <==> m.areaBaseWidth == m.areaBaseHeight)
            && (m.areaBaseWidth > m.areaBaseHeight <==> h > frameClientWidth)
  {
    var bw, bh, fw := m.areaBaseWidth, m.areaBaseHeight, frameClientWidth;
    var h := fw * bw / bh;
    assert h * bh == fw * bw;
    if h * bw == fw * bh {
      assert h * bw * bh == fw * bh * bh;
      assert fw * bw * bw == fw * bh * bh;
      assert (bw - bh) * (bw + bh) == 0.0;
    }
    if bw > bh {
      assert fw * bw > fw * bh;
      assert h * bh > fw * bh;
    } else {
      assert fw * bw <= fw * bh;
      assert fw * bw / bh <= fw * bh / bh;
      assert fw * bh / bh == fw;
    }
  }

  /** The indicator is at least as wide as the frame exactly when the whole
      scaled drawing fits across the viewport. */
  lemma IndicatorFillsWidthIff(m: MiniMap, frameClientWidth: real, zoom: real, position: (real, real))
    requires m.areaBaseWidth > 0.0 && m.areaBaseHeight > 0.0 && zoom > 0.0
    ensures Update(m, frameClientWidth, zoom, position).indicatorWidth >= 100.0
            <==> m.viewWidth >= m.areaBaseWidth * zoom
  {
    var w := Update(m, frameClientWidth, zoom, position).indicatorWidth;
    var a := m.areaBaseWidth * zoom;
    assert a > 0.0;
    assert w * a == m.viewWidth * 100.0;
    if w >= 100.0 {
      assert w * a >= 100.0 * a;
    } else {
      assert w * a < 100.0 * a;
    }
  }

  /** In any reachable state the indicator covers the frame's width exactly
      when the viewer cannot pan horizontally (its largest offset is at most 0). */
  lemma IndicatorFillsWidthIffNoPan(s: Viewport.ViewState, frameClientWidth: real)
    requires Viewport.Valid(s) && s.dims.baseWidth > 0.0 && s.dims.baseHeight > 0.0
    ensures Update(MiniMapOf(s.dims), frameClientWidth, s.zoomLevel, (s.x, s.y)).indicatorWidth >= 100.0
            <==> s.maxViewOffsetX <= 0.0
  {
    IndicatorFillsWidthIff(MiniMapOf(s.dims), frameClientWidth, s.zoomLevel, (s.x, s.y));
  }

  /** At zoom 1, a horizontal offset within bounds puts the indicator inside
      the frame horizontally (before rounding): its left edge plus its width,
      in pixels, stay within the frame's width. Vertically this does not
      hold, as `IndicatorBelowFrameAtUnitZoom` shows. */
  lemma IndicatorInsideFrameAtUnitZoom(s: Viewport.ViewState, frameClientWidth: real)
    requires Viewport.Valid(s) && s.dims.baseWidth > 0.0 && s.dims.baseHeight > 0.0
    requires s.zoomLevel == 1.0 && 0.0 <= s.x <= s.maxViewOffsetX && frameClientWidth >= 0.0
    ensures var r := Update(MiniMapOf(s.dims), frameClientWidth, s.zoomLevel, (s.x, s.y));
            0.0 <= s.x * frameClientWidth / s.dims.baseWidth
            && s.x * frameClientWidth / s.dims.baseWidth + r.indicatorWidth * frameClientWidth / 100.0
               <= frameClientWidth
  {
    var r := Update(MiniMapOf(s.dims), frameClientWidth, s.zoomLevel, (s.x, s.y));
    var bw := s.dims.baseWidth;
    var vw := s.dims.clientWidth;
    var fw := frameClientWidth;
    assert r.indicatorWidth * bw == vw * 100.0;
    assert r.indicatorWidth / 100.0 == vw / bw;
    assert s.x + vw <= bw;
    calc {
      s.x * fw / bw + r.indicatorWidth * fw / 100.0;
      == (s.x + vw) * fw / bw;
      <= { assert (s.x + vw) * fw <= bw * fw; }
      bw * fw / bw;
      == fw;
    }
    assert 0.0 <= s.x * fw;
  }

  /** Above zoom 1 the indicator can leave the frame although the offset is
      within bounds: the offset is measured in the scaled drawing but divided
      by the unscaled width. A 1000 x 800 drawing in a 400 x 300 viewport,
      zoomed in from 1 to 2, can be panned right to its largest horizontal
      offset, 1600; in a frame 100 pixels wide the indicator's left edge then
      lands at 160. `s0` is the viewer as its constructor leaves it (zoom 1,
      no pan), as `Viewport.Init` of those sizes is. */
  lemma IndicatorLeavesFrameAtZoomTwo(s0: Viewport.ViewState)
    requires s0.dims == Viewport.Dims(1000.0, 800.0, 400.0, 300.0)
    requires s0.zoomLevel == 1.0 && s0.x == 0.0 && s0.y == 0.0
    ensures var s := Viewport.Move(Viewport.Zoom(s0, 1.0), 1600.0, 0.0);
            && s.zoomLevel == 2.0 && s.x == s.maxViewOffsetX == 1600.0 && s.y == 0.0
            && var r := Update(MiniMapOf(s0.dims), 100.0, s.zoomLevel, (s.x, s.y));
               r.indicatorLeft == 160 && r.indicatorWidth == 20.0 && r.indicatorLeft as real > 100.0
  {
    var z := Viewport.Zoom(s0, 1.0);
    assert z.zoomLevel == 2.0;
    assert z.areaWidth == 2000.0;
    var r := Update(MiniMapOf(s0.dims), 100.0, 2.0, (1600.0, 0.0));
    RoundsToUnique(r.indicatorLeft, 160, 160.0);
  }

  /** Vertically the indicator can leave the frame even at zoom 1 with the
      offset within bounds: its top is the offset scaled by the frame's width
      over the drawing's width, but the frame's height is the frame's width
      times width over height. An 800 x 1000 drawing in a 400 x 300 viewport
      can be panned down to its largest vertical offset, 700; in a frame 100
      pixels wide, 80 high, the indicator's top then lands at 88. `s0` is the
      viewer as its constructor leaves it (zoom 1, fresh bounds, no pan), as
      `Viewport.Init` of those sizes is. */
  lemma IndicatorBelowFrameAtUnitZoom(s0: Viewport.ViewState)
    requires s0.dims == Viewport.Dims(800.0, 1000.0, 400.0, 300.0)
    requires s0.zoomLevel == 1.0 && Viewport.BoundsFresh(s0) && s0.x == 0.0 && s0.y == 0.0
    ensures var s := Viewport.Move(s0, 0.0, 700.0);
            && s.zoomLevel == 1.0 && s.x == 0.0 && s.y == s.maxViewOffsetY == 700.0
            && var r := Update(MiniMapOf(s0.dims), 100.0, s.zoomLevel, (s.x, s.y));
               r.frameHeight == 80 && r.indicatorTop == 88 && r.indicatorTop > r.frameHeight
  {
    var r := Update(MiniMapOf(s0.dims), 100.0, 1.0, (0.0, 700.0));
    RoundsToUnique(r.frameHeight, 80, 80.0);
    RoundsToUnique(r.indicatorTop, 88, 87.5);
  }

  /** The numbers of a 1000 x 800 drawing in a 400 x 300 viewport, a frame
      100 pixels wide, zoom 1 and the offset at its bound (600, 500). */
  lemma MiniMapScenario()
    ensures Update(MiniMap(400.0, 300.0, 1000.0, 800.0), 100.0, 1.0, (600.0, 500.0))
         == MiniMapStyle(125, 40.0, 37.5, 50, 60)
  {
    var r := Update(MiniMap(400.0, 300.0, 1000.0, 800.0), 100.0, 1.0, (600.0, 500.0));
    RoundsToUnique(r.frameHeight, 125, 125.0);
    RoundsToUnique(r.indicatorTop, 50, 50.0);
    RoundsToUnique(r.indicatorLeft, 60, 60.0);
  }
}

=== FILE: svg_viewer.dfy ===
/**
  The `SVGViewer` object: the viewport state kept in mutable fields and the
  operations that update them in place. Each method is proved to leave the
  object in the state that the matching function of `Viewport` computes
  from the state before the call, so everything proved about those
  functions holds of the object.
*/
module SvgViewer {
  import opened Wrappers
  import Viewport
  import MiniMapSync

  class SVGViewer {
    // Sizes read from the page when the viewer is built.
    const baseWidth: real       // area.width.baseVal.value
    const baseHeight: real      // area.height.baseVal.value
    const clientWidth: real     // view.clientWidth
    const clientHeight: real    // view.clientHeight

    const minZoomLevel: real
    const maxZoomLevel: real
    const animationIntervalTime: nat
    const miniMap: MiniMapSync.MiniMap

    var viewPosition: array<real>
    var zoomLevel: real
    var isViewMoving: bool
    var animationInterval: Option<nat>
    var areaWidth: real
    var areaHeight: real
    var maxViewOffsetX: real
    var maxViewOffsetY: real
    /** The host's interval timers started by this viewer. */
    var intervals: Viewport.IntervalTable

    ghost predicate Valid()
      reads this
    {
      && viewPosition.Length == 2
      && minZoomLevel == Viewport.MinZoomLevel
      && maxZoomLevel == Viewport.MaxZoomLevel
      && animationIntervalTime == Viewport.AnimationIntervalTime
    }

    /** The object's fields as a `Viewport.ViewState`. */
    ghost function State(): Viewport.ViewState
      reads this, viewPosition
      requires Valid()
    {
      Viewport.ViewState(
        Viewport.Dims(baseWidth, baseHeight, clientWidth, clientHeight),
        viewPosition[0], viewPosition[1], zoomLevel, isViewMoving, animationInterval,
        areaWidth, areaHeight, maxViewOffsetX, maxViewOffsetY, intervals)
    }

    /** The page sizes are passed in rather than read from the document. */
    constructor (baseWidth: real, baseHeight: real, clientWidth: real, clientHeight: real)
      ensures Valid() && fresh(viewPosition)
      ensures State() == Viewport.Init(Viewport.Dims(baseWidth, baseHeight, clientWidth, clientHeight))
      ensures miniMap == MiniMapSync.MiniMapOf(Viewport.Dims(baseWidth, baseHeight, clientWidth, clientHeight))
    {
      this.baseWidth := baseWidth;
      this.baseHeight := baseHeight;
      this.clientWidth := clientWidth;
      this.clientHeight := clientHeight;
      viewPosition := new real[2](_ => 0.0);
      zoomLevel := Viewport.InitialZoomLevel;
      minZoomLevel := Viewport.MinZoomLevel;
      maxZoomLevel := Viewport.MaxZoomLevel;
      isViewMoving := false;
      animationInterval := None;
      animationIntervalTime := Viewport.AnimationIntervalTime;
      intervals := Viewport.IntervalTable({}, Viewport.FirstIntervalId);
      miniMap := MiniMapSync.MiniMapOf(Viewport.Dims(baseWidth, baseHeight, clientWidth, clientHeight));
      new;
      CalculateViewAreaRatioValues();
    }

    method Move(x: real, y: real)
      requires Valid()
      modifies viewPosition
      ensures Valid()
      ensures State() == Viewport.Move(old(State()), x, y)
    {
      var updatedX := viewPosition[0] + x;
      var updatedY := viewPosition[1] + y;

      updatedX := if updatedX < 0.0 then 0.0 else updatedX;
      updatedX := if updatedX > maxViewOffsetX then maxViewOffsetX else updatedX;
      updatedY := if updatedY < 0.0 then 0.0 else updatedY;
      updatedY := if updatedY > maxViewOffsetY then maxViewOffsetY else updatedY;

      viewPosition[0] := updatedX;
      viewPosition[1] := updatedY;
    }

    method Zoom(delta: real)
      requires Valid()
      modifies this`zoomLevel, this`areaWidth, this`areaHeight, this`maxViewOffsetX, this`maxViewOffsetY
      ensures Valid()
      ensures State() == Viewport.Zoom(old(State()), delta)
    {
      var newVal := zoomLevel + delta;

      newVal := if newVal < minZoomLevel then minZoomLevel else newVal;
      newVal := if newVal > maxZoomLevel then maxZoomLevel else newVal;

      zoomLevel := newVal;

      CalculateViewAreaRatioValues();
    }

    method CalculateViewAreaRatioValues()
      requires Valid()
      modifies this`areaWidth, this`areaHeight, this`maxViewOffsetX, this`maxViewOffsetY
      ensures Valid()
      ensures State() == Viewport.CalculateViewAreaRatioValues(old(State()))
    {
      areaWidth := baseWidth * zoomLevel;
      areaHeight := baseHeight * zoomLevel;
      maxViewOffsetX := areaWidth - clientWidth;
      maxViewOffsetY := areaHeight - clientHeight;
    }

    method OnAreaMouseEvent(evt: Viewport.MouseEvent)
      requires Valid()
      modifies this`isViewMoving, this`animationInterval, this`intervals, viewPosition
      ensures Valid()
      ensures State() == Viewport.OnAreaMouseEvent(old(State()), evt)
    {
      match evt
      case MouseDown =>
        if isViewMoving { return; }
        isViewMoving := true;
        StartAnimationLoop();
      case MouseUp =>
        isViewMoving := false;
        StopAnimationLoop();
      case MouseMove(movementX, movementY) =>
        if !isViewMoving { return; }
        Move(-movementX, -movementY);
      case Wheel =>
      case OtherEvent =>
    }

    method StartAnimationLoop()
      requires Valid()
      modifies this`animationInterval, this`intervals
      ensures Valid()
      ensures State() == Viewport.StartAnimationLoop(old(State()))
    {
      var (table, handle) := Viewport.SetInterval(intervals);
      intervals := table;
      animationInterval := Some(handle);
    }

    method StopAnimationLoop()
      requires Valid()
      modifies this`animationInterval, this`intervals
      ensures Valid()
      ensures State() == Viewport.StopAnimationLoop(old(State()))
    {
      intervals := Viewport.ClearInterval(intervals, animationInterval);
      animationInterval := None;
    }
  }
}

=== FILE: viewport.dfy ===
/**
  The viewport transform engine of the SVG viewer, as values.

  A `ViewState` holds everything `SVGViewer` keeps in its fields: the pan
  offset, the zoom level, the bounds derived from the zoom level and the
  page sizes, the drag flag and the handle of the render loop. The functions
  below are the viewer's operations on that state; the class in
  svg_viewer.dfy is proved to perform exactly them.
*/
module Viewport {
  import opened Wrappers

  const MinZoomLevel: real := 0.1
  const MaxZoomLevel: real := 2.0
  const InitialZoomLevel: real := 1.0
  /** Period of the render loop started on mousedown, in milliseconds. */
  const AnimationIntervalTime: nat := 30
  /** Interval ids are positive; the model hands them out from 1. */
  const FirstIntervalId: nat := 1

  /** Sizes read from the page: the drawing's unscaled width and height
      (`area.width.baseVal.value`, `area.height.baseVal.value`) and the
      viewport's client width and height. */
  datatype Dims = Dims(baseWidth: real, baseHeight: real, clientWidth: real, clientHeight: real)

  /** The host's table of interval timers started by the viewer: the ids not
      yet cleared, and the id the next `setInterval` hands out. */
  datatype IntervalTable = IntervalTable(live: set<nat>, nextId: nat)

  datatype ViewState = ViewState(
    dims: Dims,
    x: real,                         // viewPosition[0]
    y: real,                         // viewPosition[1]
    zoomLevel: real,
    isViewMoving: bool,
    animationInterval: Option<nat>,  // null or the handle of the render loop
    areaWidth: real,
    areaHeight: real,
    maxViewOffsetX: real,
    maxViewOffsetY: real,
    intervals: IntervalTable)

  /** The mouse events the drawing area listens to. Only the movement of a
      mousemove is used; an event of any other type falls through the switch. */
  datatype MouseEvent =
    | MouseDown
    | MouseUp
    | MouseMove(movementX: real, movementY: real)
    | Wheel
    | OtherEvent

  /** Bounds are fresh: derived from the current zoom level and the page sizes. */
  predicate BoundsFresh(s: ViewState) {
    && s.areaWidth == s.dims.baseWidth * s.zoomLevel
    && s.areaHeight == s.dims.baseHeight * s.zoomLevel
    && s.maxViewOffsetX == s.areaWidth - s.dims.clientWidth
    && s.maxViewOffsetY == s.areaHeight - s.dims.clientHeight
  }

  /** The pan offset lies inside the bounds (which requires them to be non-negative). */
  predicate InBounds(s: ViewState) {
    0.0 <= s.x <= s.maxViewOffsetX && 0.0 <= s.y <= s.maxViewOffsetY
  }

  /** The render loop runs exactly while a drag is in progress, and it is the
      only interval of the viewer that the host still holds. */
  predicate TimerConsistent(s: ViewState) {
    && (s.isViewMoving <==> s.animationInterval.Some?)
    && s.intervals.live == (if s.animationInterval.Some? then {s.animationInterval.value} else {})
    && (forall h :: h in s.intervals.live ==> h < s.intervals.nextId)
  }

  /** What holds of every state the viewer can reach. */
  predicate Valid(s: ViewState) {
    MinZoomLevel <= s.zoomLevel <= MaxZoomLevel && BoundsFresh(s) && TimerConsistent(s)
  }

  /** One coordinate of `move`: clamped below at 0 and then above at `hi`,
      so that a negative `hi` wins over the lower clamp. */
  function ClampOffset(v: real, hi: real): (r: real)
    ensures hi >= 0.0 ==> 0.0 <= r <= hi
    ensures hi < 0.0 ==> r == hi
    ensures 0.0 <= v <= hi ==> r == v
    ensures v < 0.0 <= hi ==> r == 0.0
    ensures 0.0 <= hi < v ==> r == hi
  {
    var low := if v < 0.0 then 0.0 else v;
    if low > hi then hi else low
  }

  /** The zoom level of `zoom`: clamped below at the minimum and then above at the maximum. */
  function ClampZoom(v: real): (r: real)
    ensures MinZoomLevel <= r <= MaxZoomLevel
    ensures MinZoomLevel <= v <= MaxZoomLevel ==> r == v
    ensures v < MinZoomLevel ==> r == MinZoomLevel
    ensures v > MaxZoomLevel ==> r == MaxZoomLevel
  {
    var low := if v < MinZoomLevel then MinZoomLevel else v;
    if low > MaxZoomLevel then MaxZoomLevel else low
  }

  /** `calculateViewAreaRatioValues`: recompute the scaled area and the largest
      pan offsets; nothing else changes. The offsets are not floored at 0. */
  function CalculateViewAreaRatioValues(s: ViewState): (r: ViewState)
    ensures BoundsFresh(r)
    ensures r == s.(areaWidth := r.areaWidth, areaHeight := r.areaHeight,
                    maxViewOffsetX := r.maxViewOffsetX, maxViewOffsetY := r.maxViewOffsetY)
    ensures r.maxViewOffsetX >= 0.0 <==> s.dims.baseWidth * s.zoomLevel >= s.dims.clientWidth
    ensures r.maxViewOffsetY >= 0.0 <==> s.dims.baseHeight * s.zoomLevel >= s.dims.clientHeight
  {
    var areaWidth := s.dims.baseWidth * s.zoomLevel;
    var areaHeight := s.dims.baseHeight * s.zoomLevel;
    s.(areaWidth := areaWidth, areaHeight := areaHeight,
       maxViewOffsetX := areaWidth - s.dims.clientWidth,
       maxViewOffsetY := areaHeight - s.dims.clientHeight)
  }

  /** The state the constructor leaves: no pan, zoom 1, no drag, no render
      loop, bounds computed at zoom 1. */
  function Init(d: Dims): (r: ViewState)
    ensures Valid(r)
    ensures r.dims == d && r.x == 0.0 && r.y == 0.0 && r.zoomLevel == 1.0
    ensures !r.isViewMoving && r.animationInterval == None && r.intervals.live == {}
    ensures r.maxViewOffsetX == d.baseWidth - d.clientWidth
    ensures r.maxViewOffsetY == d.baseHeight - d.clientHeight
  {
    CalculateViewAreaRatioValues(
      ViewState(d, 0.0, 0.0, InitialZoomLevel, false, None,
                0.0, 0.0, 0.0, 0.0, IntervalTable({}, FirstIntervalId)))
  }

  /** `move([dx, dy])`: pan by the delta and clamp each coordinate against the
      current bounds; only the position changes. */
  function Move(s: ViewState, dx: real, dy: real): (r: ViewState)
    ensures r == s.(x := r.x, y := r.y)
    ensures s.maxViewOffsetX >= 0.0 ==> 0.0 <= r.x <= s.maxViewOffsetX
    ensures s.maxViewOffsetY >= 0.0 ==> 0.0 <= r.y <= s.maxViewOffsetY
    ensures s.maxViewOffsetX < 0.0 ==> r.x == s.maxViewOffsetX
    ensures s.maxViewOffsetY < 0.0 ==> r.y == s.maxViewOffsetY
    ensures 0.0 <= s.x + dx <= s.maxViewOffsetX ==> r.x == s.x + dx
    ensures 0.0 <= s.y + dy <= s.maxViewOffsetY ==> r.y == s.y + dy
    ensures s.x + dx < 0.0 <= s.maxViewOffsetX ==> r.x == 0.0
    ensures s.y + dy < 0.0 <= s.maxViewOffsetY ==> r.y == 0.0
    ensures 0.0 <= s.maxViewOffsetX < s.x + dx ==> r.x == s.maxViewOffsetX
    ensures 0.0 <= s.maxViewOffsetY < s.y + dy ==> r.y == s.maxViewOffsetY
  {
    s.(x := ClampOffset(s.x + dx, s.maxViewOffsetX),
       y := ClampOffset(s.y + dy, s.maxViewOffsetY))
  }

  /** `zoom(delta)`: add the delta, clamp into [MinZoomLevel, MaxZoomLevel],
      then recompute the bounds. The position is kept as it was. */
  function Zoom(s: ViewState, delta: real): (r: ViewState)
    ensures MinZoomLevel <= r.zoomLevel <= MaxZoomLevel
    ensures MinZoomLevel <= s.zoomLevel + delta <= MaxZoomLevel ==> r.zoomLevel == s.zoomLevel + delta
    ensures s.zoomLevel + delta < MinZoomLevel ==> r.zoomLevel == MinZoomLevel
    ensures s.zoomLevel + delta > MaxZoomLevel ==> r.zoomLevel == MaxZoomLevel
    ensures BoundsFresh(r)
    ensures r == s.(zoomLevel := r.zoomLevel, areaWidth := r.areaWidth, areaHeight := r.areaHeight,
                    maxViewOffsetX := r.maxViewOffsetX, maxViewOffsetY := r.maxViewOffsetY)
  {
    CalculateViewAreaRatioValues(s.(zoomLevel := ClampZoom(s.zoomLevel + delta)))
  }

  /** The host's `setInterval`: a fresh id, recorded as live. */
  function SetInterval(t: IntervalTable): (r: (IntervalTable, nat))
    ensures r.0.live == t.live + {r.1}
    ensures (forall h :: h in t.live ==> h < t.nextId) ==>
              r.1 !in t.live && (forall h :: h in r.0.live ==> h < r.0.nextId)
  {
    (IntervalTable(t.live + {t.nextId}, t.nextId + 1), t.nextId)
  }

  /** The host's `clearInterval`: clearing null, or an id not live, does nothing. */
  function ClearInterval(t: IntervalTable, handle: Option<nat>): (r: IntervalTable)
    ensures r.nextId == t.nextId
    ensures handle.Some? ==> r.live == t.live - {handle.value}
    ensures handle.None? ==> r == t
  {
    match handle
    case None => t
    case Some(h) => t.(live := t.live - {h})
  }

  /** `startAnimationLoop`: start the render loop and keep its handle. */
  function StartAnimationLoop(s: ViewState): (r: ViewState)
    ensures r.animationInterval.Some? && r.animationInterval.value in r.intervals.live
    ensures (forall h :: h in s.intervals.live ==> h < s.intervals.nextId) ==>
              r.animationInterval.value !in s.intervals.live
    ensures r.intervals.live - {r.animationInterval.value} == s.intervals.live - {r.animationInterval.value}
    ensures r == s.(animationInterval := r.animationInterval, intervals := r.intervals)
  {
    var (t, id) := SetInterval(s.intervals);
    s.(animationInterval := Some(id), intervals := t)
  }

  /** `stopAnimationLoop`: clear whatever handle is held and forget it. */
  function StopAnimationLoop(s: ViewState): (r: ViewState)
    ensures r.animationInterval == None
    ensures s.animationInterval.Some? ==> r.intervals.live == s.intervals.live - {s.animationInterval.value}
    ensures s.animationInterval.None? ==> r.intervals == s.intervals
    ensures r.intervals.nextId == s.intervals.nextId
    ensures r.intervals.live <= s.intervals.live
    ensures r == s.(animationInterval := None, intervals := r.intervals)
  {
    s.(animationInterval := None, intervals := ClearInterval(s.intervals, s.animationInterval))
  }

  /** `onAreaMouseEvent`: the drag machine. A mousedown starts a drag (and the
      render loop) unless one is running; a mouseup always ends it; a
      mousemove pans by the inverted movement while a drag is running. */
  function OnAreaMouseEvent(s: ViewState, e: MouseEvent): (r: ViewState)
    ensures r.dims == s.dims && r.zoomLevel == s.zoomLevel
    ensures r.areaWidth == s.areaWidth && r.areaHeight == s.areaHeight
    ensures r.maxViewOffsetX == s.maxViewOffsetX && r.maxViewOffsetY == s.maxViewOffsetY
    ensures e.MouseDown? ==> r.isViewMoving && r.x == s.x && r.y == s.y
    ensures e.MouseUp? ==> !r.isViewMoving && r.animationInterval == None && r.x == s.x && r.y == s.y
    ensures e.MouseMove? ==> r.isViewMoving == s.isViewMoving && r.animationInterval == s.animationInterval
    ensures e.Wheel? || e.OtherEvent? ==> r == s
  {
    match e
    case MouseDown =>
      if s.isViewMoving then s
      else StartAnimationLoop(s.(isViewMoving := true))
    case MouseUp =>
      StopAnimationLoop(s.(isViewMoving := false))
    case MouseMove(mx, my) =>
      if !s.isViewMoving then s
      else Move(s, -mx, -my)
    case Wheel => s
    case OtherEvent => s
  }

  /** A call into the viewer from outside: a direct `move` or `zoom` (as the
      pan and zoom buttons make) or a mouse event on the drawing area. */
  datatype Action = Pan(dx: real, dy: real) | ZoomBy(delta: real) | Mouse(event: MouseEvent)

  function Step(s: ViewState, a: Action): ViewState {
    match a
    case Pan(dx, dy) => Move(s, dx, dy)
    case ZoomBy(delta) => Zoom(s, delta)
    case Mouse(e) => OnAreaMouseEvent(s, e)
  }

  /** Each move, zoom or mouse event keeps a valid state valid. */
  lemma StepPreservesValid(s: ViewState, a: Action)
    ensures Valid(s) ==> Valid(Step(s, a))
  {
  }

  /** The state after a sequence of calls. The page sizes never change, and
      from a valid state every sequence of calls ends in a valid state: the
      zoom level in range, the bounds fresh, and the render loop running
      exactly while a drag is in progress. */
  function Run(s: ViewState, acts: seq<Action>): (r: ViewState)
    ensures r.dims == s.dims
    ensures Valid(s) ==> Valid(r)
    decreases |acts|
  {
    if acts == [] then s
    else
      StepPreservesValid(s, acts[0]);
      Run(Step(s, acts[0]), acts[1..])
  }
}

=== FILE: viewport_properties.dfy ===
/**
  Properties of the viewport transform engine: the invariants every call
  keeps, the behaviour of the drag machine, and the places where the clamp
  rules leave the pan offset outside [0, maxViewOffset].
*/
module ViewportProperties {
  import opened Wrappers
  import opened Viewport

  // ---------------------------------------------------------------------
  // move

  /** A move by (0, 0) within bounds leaves the state as it is. */
  lemma MoveZeroWithinBounds(s: ViewState)
    requires InBounds(s)
    ensures Move(s, 0.0, 0.0) == s
  {
  }

  /** Every result of `move` is a fixed point of `move([0, 0])`, also when a
      bound is negative and the offset was pinned to it. */
  lemma MoveSettles(s: ViewState, dx: real, dy: real)
    ensures Move(Move(s, dx, dy), 0.0, 0.0) == Move(s, dx, dy)
  {
  }

  /** Recomputing the bounds when they are already fresh changes nothing. */
  lemma RecalculateFreshIsIdentity(s: ViewState)
    requires BoundsFresh(s)
    ensures CalculateViewAreaRatioValues(s) == s
  {
  }

  /** Recomputing the bounds and then moving by (0, 0) is idempotent. */
  lemma RecalculateThenSettleIdempotent(s: ViewState)
    ensures var once := Move(CalculateViewAreaRatioValues(s), 0.0, 0.0);
            Move(CalculateViewAreaRatioValues(once), 0.0, 0.0) == once
  {
    var recalculated := CalculateViewAreaRatioValues(s);
    var once := Move(recalculated, 0.0, 0.0);
    assert BoundsFresh(once);
    RecalculateFreshIsIdentity(once);
    MoveSettles(recalculated, 0.0, 0.0);
  }

  // ---------------------------------------------------------------------
  // invariants over any sequence of calls

  /** A valid state holds at most one live interval: no render loop leaks. */
  lemma AtMostOneLiveInterval(s: ViewState)
    requires Valid(s)
    ensures |s.intervals.live| <= 1
    ensures s.isViewMoving <==> |s.intervals.live| == 1
  {
  }

  /** Every state the viewer reaches from its construction is valid, so the
      zoom level stays in [0.1, 2.0] and at most one render loop is live. */
  lemma ReachableStatesValid(d: Dims, acts: seq<Action>)
    ensures Valid(Run(Init(d), acts))
    ensures MinZoomLevel <= Run(Init(d), acts).zoomLevel <= MaxZoomLevel
    ensures |Run(Init(d), acts).intervals.live| <= 1
  {
    AtMostOneLiveInterval(Run(Init(d), acts));
  }

  /** No zoom among the calls. */
  predicate NoZoom(acts: seq<Action>) {
    forall i :: 0 <= i < |acts| ==> !acts[i].ZoomBy?
  }

  /** Moves and mouse events never change the zoom level or the bounds. */
  lemma {:induction false} PanningKeepsZoomAndBounds(s: ViewState, acts: seq<Action>)
    requires NoZoom(acts)
    ensures var r := Run(s, acts);
            && r.zoomLevel == s.zoomLevel
            && r.areaWidth == s.areaWidth && r.areaHeight == s.areaHeight
            && r.maxViewOffsetX == s.maxViewOffsetX && r.maxViewOffsetY == s.maxViewOffsetY
    decreases |acts|
  {
    if acts != [] {
      assert !acts[0].ZoomBy?;
      assert NoZoom(acts[1..]) by {
        forall i | 0 <= i < |acts[1..]| ensures !acts[1..][i].ZoomBy? {
          assert acts[1..][i] == acts[i + 1];
        }
      }
      PanningKeepsZoomAndBounds(Step(s, acts[0]), acts[1..]);
    }
  }

  /** Without a zoom, an offset within bounds stays within bounds, whatever
      the deltas and the drag events. */
  lemma {:induction false} PanningKeepsOffsetInBounds(s: ViewState, acts: seq<Action>)
    requires InBounds(s) && NoZoom(acts)
    ensures InBounds(Run(s, acts))
    decreases |acts|
  {
    if acts != [] {
      assert !acts[0].ZoomBy?;
      assert NoZoom(acts[1..]) by {
        forall i | 0 <= i < |acts[1..]| ensures !acts[1..][i].ZoomBy? {
          assert acts[1..][i] == acts[i + 1];
        }
      }
      PanningKeepsOffsetInBounds(Step(s, acts[0]), acts[1..]);
    }
  }

  // ---------------------------------------------------------------------
  // the drag machine

  /** A mousedown during a drag is ignored: no second render loop starts. */
  lemma MouseDownWhileMovingIgnored(s: ViewState)
    requires s.isViewMoving
    ensures OnAreaMouseEvent(s, MouseDown) == s
  {
  }

  /** A mousedown outside a drag starts one, with a fresh render loop that is
      then the only live interval; nothing but the flag and the handle changes. */
  lemma MouseDownStartsOneLoop(s: ViewState)
    requires Valid(s) && !s.isViewMoving
    ensures var r := OnAreaMouseEvent(s, MouseDown);
            && r.isViewMoving && r.animationInterval.Some?
            && r.intervals.live == {r.animationInterval.value}
            && r == s.(isViewMoving := true, animationInterval := r.animationInterval, intervals := r.intervals)
  {
  }

  /** A mouseup ends any drag and leaves no live interval; a second mouseup
      changes nothing more. */
  lemma MouseUpStopsLoop(s: ViewState)
    requires Valid(s)
    ensures var r := OnAreaMouseEvent(s, MouseUp);
            && !r.isViewMoving && r.animationInterval == None && r.intervals.live == {}
            && OnAreaMouseEvent(r, MouseUp) == r
  {
  }

  /** Repeating a mouseup has no further effect, in any state. */
  lemma MouseUpIdempotent(s: ViewState)
    ensures OnAreaMouseEvent(OnAreaMouseEvent(s, MouseUp), MouseUp) == OnAreaMouseEvent(s, MouseUp)
  {
  }

  /** A mousemove outside a drag changes nothing. */
  lemma MouseMoveWhileIdleIgnored(s: ViewState, mx: real, my: real)
    requires !s.isViewMoving
    ensures OnAreaMouseEvent(s, MouseMove(mx, my)) == s
  {
  }

  /** A mousemove during a drag pans by the inverted movement. */
  lemma MouseMoveWhileMovingPans(s: ViewState, mx: real, my: real)
    requires s.isViewMoving
    ensures OnAreaMouseEvent(s, MouseMove(mx, my)) == Move(s, -mx, -my)
  {
  }

  // ---------------------------------------------------------------------
  // scenarios on a 1000 x 800 drawing in a 400 x 300 viewport

  const Drawing: Dims := Dims(1000.0, 800.0, 400.0, 300.0)

  /** The drawing at zoom 1 with no pan, as the constructor leaves it. */
  predicate FreshDrawing(s: ViewState) {
    s.dims == Drawing && s.zoomLevel == 1.0 && BoundsFresh(s) && s.x == 0.0 && s.y == 0.0
  }

  lemma InitIsFreshDrawing()
    ensures FreshDrawing(Init(Drawing)) && Valid(Init(Drawing)) && !Init(Drawing).isViewMoving
  {
  }

  /** Panning past the bound is clamped to it; zooming out then recomputes the
      bounds, which go negative, but keeps the offset, which is left outside
      them; the next move pins the offset to the negative bound. */
  lemma ZoomOutLeavesOffsetOutOfBounds(s0: ViewState)
    requires FreshDrawing(s0)
    ensures s0.maxViewOffsetX == 600.0 && s0.maxViewOffsetY == 500.0
    ensures var s := Move(s0, 700.0, 0.0);
            var z := Zoom(s, -0.95);
            && s.x == 600.0 && s.y == 0.0
            && z.zoomLevel == 0.1
            && z.maxViewOffsetX == -300.0 && z.maxViewOffsetY == -220.0
            && z.x == 600.0 && !InBounds(z)
            && Move(z, 0.0, 0.0).x == -300.0 && Move(z, 0.0, 0.0).y == -220.0
  {
    var s := Move(s0, 700.0, 0.0);
    assert s.x == 600.0;
    var z := Zoom(s, -0.95);
    assert z.zoomLevel == 0.1;
    assert z.areaWidth == 100.0 && z.areaHeight == 80.0;
  }

  /** A drag: mousedown, a movement of (-10, 0) pans right by 10; two
      mouseups stop the render loop, the second with no further effect. */
  lemma DragSessionScenario(s0: ViewState)
    requires FreshDrawing(s0) && Valid(s0) && !s0.isViewMoving
    ensures var s := Run(s0, [Mouse(MouseDown), Mouse(MouseMove(-10.0, 0.0))]);
            s.isViewMoving && s.x == 10.0 && s.y == 0.0 && |s.intervals.live| == 1
    ensures var s := Run(s0, [Mouse(MouseDown), Mouse(MouseMove(-10.0, 0.0)),
                              Mouse(MouseUp), Mouse(MouseUp)]);
            !s.isViewMoving && s.animationInterval == None && s.intervals.live == {}
            && s.x == 10.0 && s.y == 0.0
  {
    var s1 := OnAreaMouseEvent(s0, MouseDown);
    MouseDownStartsOneLoop(s0);
    var s2 := OnAreaMouseEvent(s1, MouseMove(-10.0, 0.0));
    MouseMoveWhileMovingPans(s1, -10.0, 0.0);
    assert s2.x == 10.0 && s2.y == 0.0;
    StepPreservesValid(s1, Mouse(MouseMove(-10.0, 0.0)));
    AtMostOneLiveInterval(s2);
    var s3 := OnAreaMouseEvent(s2, MouseUp);
    var s4 := OnAreaMouseEvent(s3, MouseUp);
    MouseUpStopsLoop(s2);
    var two := [Mouse(MouseDown), Mouse(MouseMove(-10.0, 0.0))];
    assert Run(s0, two) == s2 by {
      assert two[1..] == [Mouse(MouseMove(-10.0, 0.0))];
      assert Run(s1, two[1..]) == Run(s2, []);
    }
    var all := [Mouse(MouseDown), Mouse(MouseMove(-10.0, 0.0)), Mouse(MouseUp), Mouse(MouseUp)];
    assert Run(s0, all) == s4 by {
      assert all[1..] == [Mouse(MouseMove(-10.0, 0.0)), Mouse(MouseUp), Mouse(MouseUp)];
      assert all[1..][1..] == [Mouse(MouseUp), Mouse(MouseUp)];
      assert all[1..][1..][1..] == [Mouse(MouseUp)];
      assert Run(s3, [Mouse(MouseUp)]) == Run(s4, []);
    }
  }
}

=== FILE: wrappers.dfy ===
/** Optional values, standing in for a JavaScript reference that may be null. */
module Wrappers {
  datatype Option<+T> = None | Some(value: T)
}
